=== FILE: README.md ===
# Discord music bot: playback queue and retry logic in Dafny

This project models the core of a Discord music bot (`bot.js`). The core is
the per-guild playback queue (`MusicQueue`), the decision logic of
`playMusic`, and the `searchYouTube` retry policy. It also covers the guild
registry (`queues`) and how the slash commands, buttons, the voice-leave
handler and the periodic reaper change the registry.

Everything is modelled with immutable datatypes and pure functions:

- The random shuffle index is a parameter (`pick`). The source draws it with
  `Math.random`.
- The outcomes of the `play-dl` calls are inputs. For `play.stream` that is
  success, failure with a message, or a thrown value without one. For
  `play.search` it is a first result, no result, an error message, or a
  thrown value without one, given per retry count. For
  `play.video_info` it is the details, or nothing.
- Timers are not run. A step returns the delay it would wait and the
  `playMusic` call it would schedule.

Modules:

- `Common`: `Option`, `Min`, and JavaScript's `includes`, proved equal to
  "occurs at some position".
- `Queues`: `MusicQueue`, `addSong`, `getNextSong` and `clear`, plus
  draining a queue.
- `Backoff`: the delay tables, the YouTube-error classification and the
  search retry rule.
- `Search`: a `searchYouTube` run, and how `/play` turns a query into a
  song.
- `Playback`: one `playMusic` call as a pure step; the player Idle handler;
  chains of calls linked by retry and give-up timers; a whole queue played
  through.
- `Registry`: `map<GuildId, MusicQueue>`, the command and button handlers,
  voice-leave teardown, the reaper, and the `/queue` listing.

Behaviour of the code that the model keeps, some of it easy to miss:

- **With loop off, a retry does not re-attempt the failed song.** A retry
  calls `playMusic(queue, nextRetry)`, which runs the song selection again
  on the queue the failed call left. With loop off it therefore takes the
  next pending song, or goes idle (`RetryMovesOnWithoutLoop`), and a chain
  of retries and give-ups attempts the pending songs in queue order
  (`ChainTakesSongsInOrder`). With loop on, the selection reuses the
  current song, so the failed song is attempted again.
- **With loop on, the song is never dropped.** A give-up restarts at retry
  count 0 on the same song (`LoopedSongNeverDropped`,
  `FiveBlockingFailuresOfLoopedSong`).
- **A retry waits twice.** It waits the retry table (5, 10, 20, 30 s) and
  then the pre-attempt table (3, 8, 15, 30 s): 8, 18, 35 and 60 s in all
  (`RetryTotalDelay`).
- **The retry count is not carried over on success.** The count is a
  parameter of each call, not queue state. Only a retry passes a count
  above 0 (`playMusic(queue, nextRetry)`). Every other call starts at 0:
  the one `/play` starts, the one after a give-up, the Idle handler's and
  the player `'error'` handler's.
- **`/clear` keeps the current song.** It empties only the pending songs.
  `MusicQueue.clear()`, used by `/stop`, also forgets the current song.
- **A failed `/play` lookup still changes the registry.** It leaves the new
  queue entry and voice connection in place.
- **`/play` selects the song before it returns.** When nothing is playing,
  the `playMusic(queue)` it starts selects a song and makes it current
  before its first `await`. That is the next pending song (for a queue that
  was empty, the added one), or the looped current song, which stays. So
  once the handler is done the selected song is no longer pending
  (`PlayCommandQueuesSong`). The stream attempt that follows is
  `Playback.Complete` (`PlayCommandThenStream`).
- **A thrown value without a `message` stops everything after it.** The
  catch blocks call `error.message.includes`, which then throws. In
  `playMusic` this schedules neither a retry nor a give-up, so the chain of
  calls ends. In `searchYouTube` below the retry limit the search rejects,
  and `/play` sends no follow-up reply. At the limit the test is
  short-circuited and the search returns `null`.

## Model

| member | source | states |
|---|---|---|
| Queues.AddSong | bot.js:44-46 | `addSong` appends the song after all pending songs; nothing else in the queue changes |
| Queues.GetNextSong | bot.js:48-54 | nothing is returned exactly when no song is pending. Otherwise one song leaves the queue: multiset conservation, length drops by 1. Without a shuffle draw it is the head (`[song] + rest == songs`). With one, it is the song at `pick`, and the rest re-inserted at `pick` rebuilds the queue. Flags and connection are kept |
| Queues.Clear | bot.js:56-59 | `clear()` leaves no pending songs and no current song, and keeps flags and connection |
| Queues.Drain | bot.js:48-54 | repeated `getNextSong` yields every pending song exactly once (same multiset); without shuffle, in queue order |
| Queues.AddAll | bot.js:44-46 | successive `addSong`s leave the pending songs as the old ones followed by the added ones in order |
| Queues.AddedSongsComeOutInOrder | bot.js:44-54 | FIFO: without shuffle, added songs come out after the pending ones, in insertion order |
| Queues.ShuffledDrainConservesSongs | bot.js:48-52 | with shuffle, draining yields exactly the pending and added songs: no loss, no duplication |
| Common.ContainsSpec | bot.js:241-246 | the `includes` test is true exactly when the marker occurs at some position of the message |
| Backoff.PreAttemptDelay | bot.js:152-154 | the pre-attempt delay is 0 exactly for retry count 0. For counts 1 to 4 it is entry `retryCount - 1` of `[3000,8000,15000,30000]`, and 30000 from count 4 on (the index is clamped, never out of range) |
| Backoff.PreAttemptDelayMonotone | bot.js:152-154 | the pre-attempt delay never decreases as the retry count grows |
| Backoff.RetryWaitSeconds | bot.js:250-252 | the retry wait is always an entry of `[5,10,20,30]`, and the `nextRetry`-th one within the table |
| Backoff.RetryWaitMonotone | bot.js:250-252 | the retry wait never decreases as `nextRetry` grows |
| Backoff.YouTubeErrorIffMarkerOccurs | bot.js:241-246 | a message is a YouTube error exactly when one of the six markers occurs in it |
| Backoff.YouTubeErrorInContext | bot.js:241-246 | classification is by substring: a classified message stays classified with any text around it |
| Backoff.SearchDelay | bot.js:86-87 | the search delay is 0 exactly on the first attempt, never above 8000 ms, and at most 2000 ms per retry |
| Backoff.SearchDelayCapUnreached | bot.js:86-87 | for the retry counts a search can reach, the delay is exactly 2000 ms per retry; the 8000 ms cap never binds |
| Backoff.SignInChallengeRetriedBySearch | bot.js:123 | below the search limit, a "Sign in to confirm" or "blocked" failure is one the search retries |
| Search.SearchYouTube | bot.js:83-129 | a run makes at least one and at most `3 - retryCount` searches (one from count 2 on). Every search but the last failed with a retryable message. The result is the last search's song if it found one, else none. A last failure with a message was not retryable. The run rejects exactly when the last search threw without a message below the retry limit |
| Search.SearchFromScratch | bot.js:83-129 | a search from `/play` makes at most 3 attempts, having waited 0, 2000 or 6000 ms in all |
| Search.Resolve | bot.js:399-418 | a YouTube link resolves exactly when `video_info` answers, keeping the query as url, and is never rejected. Any other query resolves exactly when the search finds a song, to the song the search returns, and is rejected exactly when the search rejects |
| Search.ResolveUsesOneSource | bot.js:399-418 | a link's lookup does not depend on the search outcomes, and a query's lookup does not depend on `video_info` |
| Search.SearchedSongWasFound | bot.js:83-129 | a searched query resolves only to the song of the first of the first three searches that did not fail retryably, is rejected only when one of the first two threw without a message, and takes the first search's song when it found one |
| Playback.SelectSong | bot.js:141-148 | with loop on and a current song, that song is reused and the queue is unchanged. Otherwise the next pending song is taken and becomes current: the song at the drawn index when shuffling, the head otherwise, and no song is lost. Nothing is taken only from an empty queue |
| Playback.OnStreamFailure | bot.js:240-286 | a failure with a message always schedules a retry or a give-up. A retry is scheduled exactly for a YouTube error with retry count below 4, as `nextRetry = retryCount + 1` in 1..4 with wait `[5,10,20,30][nextRetry-1]`. Otherwise it gives up: "persistent" exactly when the count is at least 4, delay 5000 ms exactly for a YouTube error, else 2000 ms |
| Playback.AttemptFor | bot.js:184-286 | the attempt plays exactly when the stream succeeds, and is abandoned exactly when the thrown value has no message |
| Playback.Complete | bot.js:150-287 | after selection, the selected song is attempted after `PreAttemptDelay(retryCount)` with the attempt its outcome decides. Only `isPlaying` may change, and only on a successful stream. A follow-up call is scheduled exactly when the stream failed with a message |
| Playback.PlayMusic | bot.js:131-288 | goes idle (isPlaying false) exactly when nothing is pending and loop is off. Takes nothing exactly when loop is on with no current song and nothing pending. Otherwise the attempted song becomes current, the step waits `PreAttemptDelay(retryCount)`, the outcome decides the attempt, and only a successful stream sets `isPlaying`. A looped current song is reattempted with the queue untouched. Any other attempted song leaves the queue with no song lost: the song at the drawn index when shuffling, the head otherwise |
| Playback.NextCall | bot.js:249-286 | a step schedules a follow-up call exactly when an attempt ended in a retry or a give-up: `nextRetry` after `waitSeconds * 1000` ms for a retry, count 0 after `skipDelayMs` for a give-up. A playing or abandoned attempt schedules nothing |
| Playback.FollowUpWithinCeiling | bot.js:249-265 | whatever count a call ran with, the call it schedules has a retry count of at most 4 |
| Playback.RetryTotalDelay | bot.js:152-265 | between a failed attempt and its retry, the retry wait plus the pre-attempt delay is 8, 18, 35 or 60 s |
| Playback.RetryMovesOnWithoutLoop | bot.js:142-265 | with loop and shuffle off, a retry after the head song fails attempts the next song, or goes idle if none is pending |
| Playback.OnIdle | bot.js:385-391 | the Idle handler schedules `playMusic(queue)` after 1000 ms exactly when songs are pending or loop is on; otherwise it only clears `isPlaying` |
| Playback.IdleAdvancesToNextSong | bot.js:385-391 | when the player goes idle with songs pending (loop and shuffle off), the next call attempts the head song with no delay |
| Playback.Chain | bot.js:249-286 | a chain of calls linked by retry and give-up timers has at most one entry per trial, starting at the given retry count |
| Playback.Run | bot.js:249-286 | a run of calls linked by retry and give-up timers has at most one entry per trial, and starts at the given retry count |
| Playback.StepFacts | bot.js:240-265 | one call retries only below 4 and to the next count, its attempt is the one its outcome decides, and with loop on it re-attempts the current song and keeps it |
| Playback.CallWithDecides | bot.js:131-288 | every `playMusic` call fed a trial decides its step that way and keeps a looped current song |
| Playback.RunEntry | bot.js:249-286 | every entry of a run is decided by its own trial: a retry only below 4 and to the next count |
| Playback.RunLink | bot.js:249-286 | an entry of a run followed by another scheduled a retry or a give-up, and the next call runs with the count plus one after a retry, else 0 |
| Playback.ChainStep | bot.js:249-286 | in a chain, a retry happens only below the ceiling, each attempt is decided by its own trial, and the next call runs with the count plus one after a retry, else 0 |
| Playback.ChainRetryCeiling | bot.js:249-265 | starting at or below 4, no call of a chain ever runs with a retry count above 4 |
| Playback.NoFiveRetriesInARow | bot.js:249-265 | no chain holds five consecutive retries |
| Playback.LoopedSongNeverDropped | bot.js:142-143 | with loop on and a current song, every call of a chain attempts that song, and while attempts fail the chain never ends |
| Playback.RunKeepsLoopedSong | bot.js:142-143 | with loop on and a current song, every entry of a run attempts that song |
| Playback.RunFailuresNeverEnd | bot.js:240-286 | with loop on and a current song, a run whose attempts all fail with a message uses every trial |
| Playback.RunTakesSongsInOrder | bot.js:142-147 | with loop and shuffle off, each call of a run works on the queue the previous call left, so entry `k` attempts the `k`-th pending song |
| Playback.ChainTakesSongsInOrder | bot.js:249-286 | with loop and shuffle off, a retry or give-up never goes back to the failed song: entry `k` of a chain attempts the `k`-th pending song |
| Playback.FiveBlockingFailuresOfLoopedSong | bot.js:241-286 | five YouTube-error failures of a looped song run at counts 0..4: four retries (waits 5, 10, 20, 30 s), then a persistent give-up after 5000 ms |
| Playback.StartStreamed | bot.js:131-192 | a call with loop off and a successful stream attempts a song exactly when one is pending. That song becomes current and leaves the queue, the attempt is `Playing` with no pre-attempt delay, and the queue is playing. The connection is kept |
| Playback.PlayThrough | bot.js:131-192 | playing a queue to the end (stream success, Idle handler) starts every pending song exactly once |
| Playback.PlayThroughInOrder | bot.js:142-147 | without shuffle, a play-through starts the songs in queue order |
| Playback.PlayThroughEndsIdle | bot.js:385-391 | a play-through ends with nothing pending and `isPlaying` false, having started as many songs as were pending |
| Playback.PlayThroughUnfold | bot.js:385-391 | each round of a play-through starts a song; when the Idle handler resumes, the rest of the play-through follows it, otherwise it ends there |
| Playback.PlayThroughKeepsLastSongCurrent | bot.js:385-391 | after a play-through of a non-empty queue, the last song started is still current |
| Registry.PlayCommand | bot.js:363-441 | given the lookup's result, `/play` always leaves an entry for the guild, joining a connection only if there was none, with loop, shuffle and `isPlaying` as they were. It answers with the looked-up song exactly when the lookup resolved, at position old length + 1, starting playback exactly when nothing was playing. Other guilds are untouched |
| Registry.PlayCommandFailures | bot.js:399-418 | a failed lookup answers "no info for this URL" only for a link and "no song found" only for a search. It sends no answer exactly when the query is searched and the search rejects. The songs and the current song stay as they were |
| Registry.PlayCommandQueuesSong | bot.js:420-439 | without a playback start the song waits at the end of the queue. With one, a looped current song stays and the new song waits; otherwise the next song becomes current, the head without shuffle, and the current song plus the pending ones are the old pending songs plus the new one |
| Registry.PlayCommandThenStream | bot.js:131-192 | `/play` on an idle queue followed by its stream attempt is one whole `playMusic` call on the queue with the song added |
| Registry.StopQueue | bot.js:457-459 | `/stop` leaves nothing pending, no current song and `isPlaying` false, keeping flags and connection |
| Registry.ListQueue | bot.js:482-489 | the listing shows the first `min(n,10)` songs numbered from 1, and a "more" count that is `n-10` when positive, else 0 |
| Registry.ListingAccountsForQueue | bot.js:482-489 | the songs shown followed by the hidden rest rebuild the queue, and "more" counts the hidden rest |
| Registry.HandleCommand | bot.js:341-540 | outside the allowed guild nothing changes. `play`/`skip`/`stop`/`pause` outside a voice channel change nothing. Every command but `/play` refuses without a queue and creates no entry. Other guilds are never touched. Every refusal except `/play`'s lookup failure leaves the registry as it was; the registry changes only with an added song, a failed lookup, a rejected search left unanswered, or a `/stop`, `/loop`, `/shuffle`, `/clear` or `/disconnect` reply |
| Registry.CommandEffects | bot.js:363-540 | the effect of each accepted command in a guild with a queue. `/play` is `PlayCommand` on the result of `Resolve`. `/stop` applies `clear()` and clears `isPlaying`. `/loop` and `/shuffle` flip their flag. `/skip` and `/pause` refuse exactly when not playing, otherwise answer, and change nothing. `/queue` refuses exactly on an empty queue and otherwise lists `ListQueue` of the pending songs. `/clear` refuses exactly on an empty queue and otherwise empties it, reporting the count. `/disconnect` refuses exactly without a connection and otherwise deletes only that guild |
| Registry.CommandsNeedAQueue | bot.js:443-540 | without a queue, `/skip`, `/stop`, `/pause`, `/loop` and `/shuffle` answer "nothing playing", `/queue` "queue is empty", `/clear` "already empty" and `/disconnect` "not connected"; no entry is created |
| Registry.ClearCommandKeepsCurrentSong | bot.js:522-530 | `/clear` reports the number removed and empties the pending songs but keeps the current song, unlike `clear()` |
| Registry.SkipAdvances | bot.js:443-450 | `/skip` while playing changes nothing itself; the resulting Idle event attempts the next pending song |
| Registry.StopSilences | bot.js:452-461 | after `/stop`, the player's Idle event either marks the queue idle or leads to a call that takes nothing |
| Registry.PlayOnFreshGuild | bot.js:363-441 | `/play` in a guild without an entry answers with position 1 and leaves a fresh queue with a new connection and the song already current, none pending; the stream attempt then runs without delay and sets `isPlaying` exactly on success |
| Registry.PressButton | bot.js:544-578 | buttons are ignored without a queue. Stop applies `clear()` and clears `isPlaying`, loop flips the flag, and pause and skip change nothing. Other guilds are untouched |
| Registry.VoiceStateUpdate | bot.js:580-592 | the guild's entry is deleted exactly when it exists and the bot left its channel; every other entry is kept unchanged |
| Registry.TeardownThenPlayStartsFresh | bot.js:580-592 | after the voice-leave teardown, and after `/disconnect`, the next `/play` starts from a fresh queue with a new connection: nothing pending, loop and shuffle off, and the current song is the added one, if any |
| Registry.Reap | bot.js:619-627 | the reaper keeps exactly the entries whose connection is not `destroyed`, unchanged |
| Registry.Sweep | bot.js:619-627 | the entry-by-entry sweep that deletes dead entries ends with exactly the reaped registry |
| Registry.ReapIdempotent | bot.js:619-627 | reaping twice removes nothing more, and a live entry is never removed |

## Left out

- Discord client setup, command registration, embeds, buttons' layout and reply texts: presentation only. Replies are modelled as which message is sent. `isChatInputCommand`/`isButton` dispatch is left out.
- The `play-dl` calls (`search`, `stream`, `video_info`), `createAudioResource`, `joinVoiceChannel`, `player.play`/`stop`/`pause`/`unpause`: foreign I/O. Their outcomes are inputs. The player's own state, including paused or playing, is not modelled. A new connection starts as `Signalling`; later status changes come from outside.
- `Math.random`: user-agent rotation is dropped. The shuffle index is a parameter, and multi-step runs turn a draw into an index modulo the queue length.
- `setTimeout`/`setInterval` scheduling and overlapping `playMusic` chains are left out, because they are timing and concurrency behaviour. This covers the player `'error'` handler (bot.js:393-396), retries still firing after `/stop`, and a second `/play` arriving while a stream is being fetched. Delays are returned values. A chain follows only the calls one step schedules itself.
- Pausing: `/pause` checks `isPlaying` and the pause button checks nothing; both only toggle the player, whose state is not modelled. The model keeps `/pause`'s guard and shows neither changes queue state.
- `textChannel` and the text of notifications: presentation.
- The voice-leave handler's `clear()`, `isPlaying = false` and `connection.destroy()` on the deleted queue, and `connection.destroy()` in `/disconnect`: they act on an object the registry no longer holds. Only the deletion is modelled.
- The HTTP liveness server, `process.on` handlers, the client `'error'` log, token and login: process I/O.
- Search.SearchYouTube: the total wait is only bounded from below in the contract; its exact value from retry count 0 is stated by `SearchFromScratch`.
- A thrown `null` or `undefined`: the catch blocks' `console.error(..., error.message)` would itself throw, even in a search at the retry limit. The failures without a message in the model are thrown values that are not `null` and have no `message` property.

=== FILE: backoff.dfy ===
/** The numeric tables and message tests that drive recovery: the delay
    `playMusic` waits before a repeated attempt (bot.js:152-154), the error
    classification (bot.js:241-246), the retry wait and give-up delays
    (bot.js:249-252, 285) and the `searchYouTube` policy (bot.js:86-87, 123). */
module Backoff {
  import opened Common

  /** The retry ceiling of `playMusic` (`retryCount < 4`, "Intento n/4"). */
  const MaxRetries: nat := 4

  /** Milliseconds waited at the start of an attempt with `retryCount > 0`. */
  const PreAttemptDelaysMs: seq<nat> := [3000, 8000, 15000, 30000]

  /** Seconds before a scheduled retry, indexed by `nextRetry - 1`. */
  const RetryWaitsSeconds: seq<nat> := [5, 10, 20, 30]

  /** Milliseconds before moving on after giving up. */
  const YouTubeSkipDelayMs: nat := 5000
  const GenericSkipDelayMs: nat := 2000

  /** The pre-attempt delay: none on a first attempt, otherwise the table
      entry for `retryCount`, the last entry repeating beyond the table. */
  function PreAttemptDelay(retryCount: nat): (ms: nat)
    ensures ms == 0 <==> retryCount == 0
    ensures retryCount > 0 ==> ms in PreAttemptDelaysMs
    ensures 1 <= retryCount <= |PreAttemptDelaysMs| ==> ms == PreAttemptDelaysMs[retryCount - 1]
    ensures retryCount >= |PreAttemptDelaysMs| ==> ms == PreAttemptDelaysMs[|PreAttemptDelaysMs| - 1]
  {
    if retryCount > 0 then
      PreAttemptDelaysMs[Min(retryCount - 1, |PreAttemptDelaysMs| - 1)]
    else
      0
  }

  /** A higher retry count never waits less. */
  lemma PreAttemptDelayMonotone(a: nat, b: nat)
    requires a <= b
    ensures PreAttemptDelay(a) <= PreAttemptDelay(b)
  {
  }

  /** The wait before retry number `nextRetry` (always at least 1, since it
      is `retryCount + 1`); the last entry repeats beyond the table. */
  function RetryWaitSeconds(nextRetry: nat): (s: nat)
    requires nextRetry >= 1
    ensures s in RetryWaitsSeconds
    ensures nextRetry <= |RetryWaitsSeconds| ==> s == RetryWaitsSeconds[nextRetry - 1]
  {
    RetryWaitsSeconds[Min(nextRetry - 1, |RetryWaitsSeconds| - 1)]
  }

  lemma RetryWaitMonotone(a: nat, b: nat)
    requires 1 <= a <= b
    ensures RetryWaitSeconds(a) <= RetryWaitSeconds(b)
  {
  }

  /** The substrings that mark an acquisition failure as YouTube blocking. */
  const YouTubeErrorMarkers: seq<string> :=
    ["Sign in to confirm", "While getting info from url", "Video unavailable", "blocked", "429", "403"]

  /** The classification of a `play.stream` failure message. */
  predicate IsYouTubeError(message: string) {
    || Contains(message, "Sign in to confirm")
    || Contains(message, "While getting info from url")
    || Contains(message, "Video unavailable")
    || Contains(message, "blocked")
    || Contains(message, "429")
    || Contains(message, "403")
  }

  /** Classification is exactly "some marker occurs at some position". */
  lemma YouTubeErrorIffMarkerOccurs(message: string)
    ensures IsYouTubeError(message) <==>
      exists k: nat, i: nat :: k < |YouTubeErrorMarkers| && OccursAt(message, YouTubeErrorMarkers[k], i)
  {
    var m := YouTubeErrorMarkers;
    forall k: nat | k < |m|
      ensures Contains(message, m[k]) <==> exists i: nat :: OccursAt(message, m[k], i)
    {
      ContainsSpec(message, m[k]);
    }
    if IsYouTubeError(message) {
      var k: nat :=
        if Contains(message, m[0]) then 0
        else if Contains(message, m[1]) then 1
        else if Contains(message, m[2]) then 2
        else if Contains(message, m[3]) then 3
        else if Contains(message, m[4]) then 4
        else 5;
      var i: nat :| OccursAt(message, m[k], i);
    }
  }

  /** A classified message stays classified inside any longer message. */
  lemma YouTubeErrorInContext(message: string, before: string, after: string)
    requires IsYouTubeError(message)
    ensures IsYouTubeError(before + message + after)
  {
    ContainsInContext(message, "Sign in to confirm", before, after);
    ContainsInContext(message, "While getting info from url", before, after);
    ContainsInContext(message, "Video unavailable", before, after);
    ContainsInContext(message, "blocked", before, after);
    ContainsInContext(message, "429", before, after);
    ContainsInContext(message, "403", before, after);
  }

  /** `searchYouTube` retries at most this many times. */
  const SearchMaxRetries: nat := 2

  const SearchDelayStepMs: nat := 2000
  const SearchDelayCapMs: nat := 8000

  /** The progressive delay before search attempt `retryCount`. */
  function SearchDelay(retryCount: nat): (ms: nat)
    ensures ms == 0 <==> retryCount == 0
    ensures ms <= SearchDelayCapMs
    ensures ms <= SearchDelayStepMs * retryCount
  {
    if retryCount > 0 then Min(SearchDelayStepMs * retryCount, SearchDelayCapMs) else 0
  }

  /** The cap is never reached by a search that starts at 0, since it stops
      after two retries. */
  lemma SearchDelayCapUnreached(retryCount: nat)
    requires retryCount <= SearchMaxRetries
    ensures SearchDelay(retryCount) == SearchDelayStepMs * retryCount
  {
  }

  /** Whether a failed search at `retryCount` is tried again. */
  predicate SearchRetryable(retryCount: nat, message: string) {
    retryCount < SearchMaxRetries && (Contains(message, "Sign in") || Contains(message, "blocked"))
  }

  /** A sign-in challenge that `playMusic` classifies as YouTube blocking is
      also one that the search retries, while retries remain. */
  lemma SignInChallengeRetriedBySearch(retryCount: nat, message: string)
    requires retryCount < SearchMaxRetries
    requires Contains(message, "Sign in to confirm") || Contains(message, "blocked")
    ensures SearchRetryable(retryCount, message)
  {
    ContainsPrefixOfPattern(message, "Sign in to confirm", "Sign in");
  }
}

=== FILE: common.dfy ===
/** Small shared vocabulary: an option type, `Min`, and JavaScript's
    `String.prototype.includes` with its positional characterisation. */
module Common {

  /** JavaScript's `null`/`undefined` versus a present value. */
  datatype Option<+T> = None | Some(value: T)

  function Min(a: int, b: int): int {
    if a <= b then a else b
  }

  /** `p` occurs in `s` starting at position `i`. */
  ghost predicate OccursAt(s: string, p: string, i: nat) {
    i + |p| <= |s| && s[i..i + |p|] == p
  }

  /** `s.includes(p)`: true exactly when `p` occurs somewhere in `s`
      (see `ContainsSpec`); the empty string occurs everywhere. */
  function Contains(s: string, p: string): bool
    decreases |s|
  {
    (|p| <= |s| && s[..|p|] == p) || (|s| > 0 && Contains(s[1..], p))
  }

  lemma {:induction false} ContainsSpec(s: string, p: string)
    ensures Contains(s, p) <==> exists i: nat :: OccursAt(s, p, i)
    decreases |s|
  {
    if Contains(s, p) {
      if |p| <= |s| && s[..|p|] == p {
        assert OccursAt(s, p, 0);
      } else {
        ContainsSpec(s[1..], p);
        var j: nat :| OccursAt(s[1..], p, j);
        assert s[1..][j..j + |p|] == s[j + 1..j + 1 + |p|];
        assert OccursAt(s, p, j + 1);
      }
    }
    forall i: nat | OccursAt(s, p, i)
      ensures Contains(s, p)
    {
      if i > 0 {
        assert s[1..][i - 1..i - 1 + |p|] == s[i..i + |p|];
        assert OccursAt(s[1..], p, i - 1);
        ContainsSpec(s[1..], p);
      }
    }
  }

  /** A match survives any text around it: what `includes` found in a
      message is still found when the message is embedded in a longer one. */
  lemma ContainsInContext(s: string, p: string, before: string, after: string)
    ensures Contains(s, p) ==> Contains(before + s + after, p)
  {
    if Contains(s, p) {
      ContainsSpec(s, p);
      var i: nat :| OccursAt(s, p, i);
      var t := before + s + after;
      assert t[|before| + i..|before| + i + |p|] == s[i..i + |p|];
      assert OccursAt(t, p, |before| + i);
      ContainsSpec(t, p);
    }
  }

  /** Searching for a longer pattern is at least as strict as searching for
      any of its prefixes. */
  lemma ContainsPrefixOfPattern(s: string, p: string, q: string)
    requires q <= p
    ensures Contains(s, p) ==> Contains(s, q)
  {
    if Contains(s, p) {
      ContainsSpec(s, p);
      var i: nat :| OccursAt(s, p, i);
      assert s[i..i + |q|] == p[..|q|];
      assert OccursAt(s, q, i);
      ContainsSpec(s, q);
    }
  }
}

=== FILE: playback.dfy ===
/** The decision skeleton of `playMusic` (bot.js:131-288) as a pure step,
    the player-Idle continuation (bot.js:385-391), and runs of consecutive
    steps linked by the follow-up calls the step schedules. The outcome of
    `play.stream` is an input; timers become returned delays. */
module Playback {
  import opened Common
  import opened Queues
  import opened Backoff

  /** What `play.stream` did for the selected song. A thrown value without
      a `message` property makes the catch block's own `message.includes`
      test throw. */
  datatype StreamOutcome = Streamed | StreamFailed(message: string) | FailedWithoutMessage

  /** How an attempt on a selected song ended. */
  datatype Attempt =
    | Playing                                    // handed to the player, `isPlaying` set
    | Retry(nextRetry: nat, waitSeconds: nat)    // `playMusic(queue, nextRetry)` after the wait
    | GiveUp(persistent: bool, skipDelayMs: nat) // `playMusic(queue, 0)` after the delay
    | Abandoned                                  // the catch block threw: nothing is scheduled

  datatype Step =
    | QueueEmpty                                  // nothing pending, loop off: goes idle
    | NothingTaken                                // loop on but nothing to reuse or take
    | Attempted(song: Song, preDelayMs: nat, attempt: Attempt)

  datatype Transition = Transition(step: Step, queue: MusicQueue)

  /** A scheduled `playMusic(queue, retryCount)` after `delayMs`. */
  datatype Call = Call(retryCount: nat, delayMs: nat)

  predicate IsRetry(s: Step) {
    s.Attempted? && s.attempt.Retry?
  }

  /** The song-selection rule: reuse the current song when looping,
      otherwise take the next one and make it current. */
  function SelectSong(q: MusicQueue, pick: nat): (n: Next)
    requires PickInRange(q, pick)
    ensures n.rest.loop == q.loop && n.rest.shuffle == q.shuffle
    ensures n.rest.isPlaying == q.isPlaying && n.rest.connection == q.connection
    ensures q.loop && q.currentSong.Some? ==> n.song == q.currentSong && n.rest == q
    ensures !(q.loop && q.currentSong.Some?) ==>
      && (n.song.None? <==> |q.songs| == 0)
      && (n.song.None? ==> n.rest == q)
      && (n.song.Some? ==> n.rest.currentSong == n.song
                           && multiset(n.rest.songs) + multiset{n.song.value} == multiset(q.songs))
      && (n.song.Some? && !Shuffling(q) ==> [n.song.value] + n.rest.songs == q.songs)
    ensures !(q.loop && q.currentSong.Some?) && Shuffling(q) ==> n.song == Some(q.songs[pick])
  {
    if q.loop && q.currentSong.Some? then
      Next(q.currentSong, q)
    else
      var n := GetNextSong(q, pick);
      if n.song.None? then n else Next(n.song, n.rest.(currentSong := n.song))
  }

  /** The catch block's decision: retry a YouTube error below the ceiling,
      otherwise give up and move on. */
  function OnStreamFailure(retryCount: nat, message: string): (a: Attempt)
    ensures a.Retry? || a.GiveUp?
    ensures a.Retry? <==> IsYouTubeError(message) && retryCount < MaxRetries
    ensures a.Retry? ==> 1 <= a.nextRetry <= MaxRetries && a.nextRetry == retryCount + 1
    ensures a.Retry? ==> a.waitSeconds == RetryWaitsSeconds[a.nextRetry - 1]
    ensures a.GiveUp? ==> (a.persistent <==> retryCount >= MaxRetries)
    ensures a.GiveUp? ==> (a.skipDelayMs == YouTubeSkipDelayMs <==> IsYouTubeError(message))
    ensures a.GiveUp? ==> a.skipDelayMs in {YouTubeSkipDelayMs, GenericSkipDelayMs}
  {
    var youTube := IsYouTubeError(message);
    if youTube && retryCount < MaxRetries then
      var nextRetry := retryCount + 1;
      Retry(nextRetry, RetryWaitSeconds(nextRetry))
    else
      GiveUp(retryCount >= MaxRetries, if youTube then YouTubeSkipDelayMs else GenericSkipDelayMs)
  }

  /** How an attempt ends for a given stream outcome. */
  function AttemptFor(retryCount: nat, outcome: StreamOutcome): (a: Attempt)
    ensures a.Playing? <==> outcome.Streamed?
    ensures a.Abandoned? <==> outcome.FailedWithoutMessage?
  {
    match outcome
    case Streamed => Playing
    case StreamFailed(message) => OnStreamFailure(retryCount, message)
    case FailedWithoutMessage => Abandoned
  }

  /** The part of a call after its song is selected: the pre-attempt delay,
      then the stream. Only a successful stream changes the queue, and a
      follow-up call is scheduled exactly when the stream failed with a
      message. */
  function Complete(q: MusicQueue, song: Song, retryCount: nat, outcome: StreamOutcome): (t: Transition)
    ensures t.step.Attempted? && t.step.song == song
    ensures t.step.preDelayMs == PreAttemptDelay(retryCount)
    ensures t.step.attempt == AttemptFor(retryCount, outcome)
    ensures t.queue.(isPlaying := q.isPlaying) == q
    ensures t.queue != q ==> outcome.Streamed?
    ensures t.queue.isPlaying == (outcome.Streamed? || q.isPlaying)
    ensures NextCall(t.step).Some? <==> outcome.StreamFailed?
  {
    var attempted := Attempted(song, PreAttemptDelay(retryCount), AttemptFor(retryCount, outcome));
    if outcome.Streamed? then Transition(attempted, q.(isPlaying := true)) else Transition(attempted, q)
  }

  /** One call `playMusic(queue, retryCount)`. */
  function PlayMusic(q: MusicQueue, retryCount: nat, pick: nat, outcome: StreamOutcome): (t: Transition)
    requires PickInRange(q, pick)
    ensures t.queue.loop == q.loop && t.queue.shuffle == q.shuffle && t.queue.connection == q.connection
    ensures t.step.QueueEmpty? <==> |q.songs| == 0 && !q.loop
    ensures t.step.QueueEmpty? ==> t.queue == q.(isPlaying := false)
    ensures t.step.NothingTaken? <==> |q.songs| == 0 && q.loop && q.currentSong.None?
    ensures t.step.NothingTaken? ==> t.queue == q
    ensures t.step.Attempted? ==>
      && t.queue.currentSong == Some(t.step.song)
      && t.step.preDelayMs == PreAttemptDelay(retryCount)
      && t.step.attempt == AttemptFor(retryCount, outcome)
      && t.queue.isPlaying == (outcome.Streamed? || q.isPlaying)
    ensures t.step.Attempted? && q.loop && q.currentSong.Some? ==>
      t.step.song == q.currentSong.value && t.queue.songs == q.songs
    ensures t.step.Attempted? && !(q.loop && q.currentSong.Some?) ==>
      multiset(t.queue.songs) + multiset{t.step.song} == multiset(q.songs)
    ensures t.step.Attempted? && !(q.loop && q.currentSong.Some?) && !Shuffling(q) ==>
      [t.step.song] + t.queue.songs == q.songs
    ensures t.step.Attempted? && !(q.loop && q.currentSong.Some?) && Shuffling(q) ==>
      t.step.song == q.songs[pick]
  {
    if |q.songs| == 0 && !q.loop then
      Transition(QueueEmpty, q.(isPlaying := false))
    else
      var n := SelectSong(q, pick);
      if n.song.None? then Transition(NothingTaken, n.rest) else Complete(n.rest, n.song.value, retryCount, outcome)
  }

  /** The `playMusic` call a step schedules by itself, if any: the retry
      after its wait in seconds, or the restart at count 0 after the skip
      delay. A song that plays continues through the player's Idle event
      instead, and an abandoned attempt schedules nothing. */
  function NextCall(s: Step): (c: Option<Call>)
    ensures c.Some? <==> s.Attempted? && (s.attempt.Retry? || s.attempt.GiveUp?)
    ensures c.Some? && IsRetry(s) ==> c.value == Call(s.attempt.nextRetry, s.attempt.waitSeconds * 1000)
    ensures c.Some? && !IsRetry(s) ==> c.value == Call(0, s.attempt.skipDelayMs)
  {
    match s
    case Attempted(_, _, Retry(n, w)) => Some(Call(n, w * 1000))
    case Attempted(_, _, GiveUp(_, d)) => Some(Call(0, d))
    case _ => None
  }

  /** A single step never schedules a retry count above the ceiling,
      whatever count it was called with. */
  lemma FollowUpWithinCeiling(q: MusicQueue, retryCount: nat, pick: nat, outcome: StreamOutcome)
    requires PickInRange(q, pick)
    ensures var c := NextCall(PlayMusic(q, retryCount, pick, outcome).step);
      c.Some? ==> c.value.retryCount <= MaxRetries
  {
  }

  /** Between a failed attempt and the next one a retry waits the retry
      wait and then the pre-attempt delay: 8, 18, 35 and 60 seconds. */
  lemma RetryTotalDelay(retryCount: nat, message: string)
    requires IsYouTubeError(message) && retryCount < MaxRetries
    ensures var a := OnStreamFailure(retryCount, message);
      a.Retry? && a.waitSeconds * 1000 + PreAttemptDelay(a.nextRetry) == [8000, 18000, 35000, 60000][retryCount]
  {
  }

  /** With loop off, a retry does not re-attempt the failed song: it runs
      the selection again, so it moves on to the next pending song, or goes
      idle when nothing is pending. */
  lemma RetryMovesOnWithoutLoop(q: MusicQueue, retryCount: nat, message: string, outcome: StreamOutcome)
    requires !q.loop && !q.shuffle && |q.songs| > 0
    requires IsYouTubeError(message) && retryCount < MaxRetries
    ensures var t1 := PlayMusic(q, retryCount, 0, StreamFailed(message));
      && IsRetry(t1.step) && t1.step.song == q.songs[0]
      && var t2 := PlayMusic(t1.queue, t1.step.attempt.nextRetry, 0, outcome);
      && (|q.songs| == 1 ==> t2.step.QueueEmpty?)
      && (|q.songs| > 1 ==> t2.step.Attempted? && t2.step.song == q.songs[1])
  {
    var t1 := PlayMusic(q, retryCount, 0, StreamFailed(message));
    assert t1.queue.songs == q.songs[1..];
  }

  const IdleResumeDelayMs: nat := 1000

  datatype IdleReaction = IdleReaction(queue: MusicQueue, resume: Option<Call>)

  /** The player's Idle handler: start `playMusic(queue)` a second later if
      anything is pending or loop is on, otherwise mark the queue idle. */
  function OnIdle(q: MusicQueue): (r: IdleReaction)
    ensures r.resume.Some? <==> |q.songs| > 0 || q.loop
    ensures r.resume.Some? ==> r.resume.value == Call(0, IdleResumeDelayMs) && r.queue == q
    ensures r.resume.None? ==> r.queue == q.(isPlaying := false)
  {
    if |q.songs| > 0 || q.loop then
      IdleReaction(q, Some(Call(0, IdleResumeDelayMs)))
    else
      IdleReaction(q.(isPlaying := false), None)
  }

  /** When the player goes idle with songs pending and loop and shuffle off,
      the next pending song is attempted (this is how `/skip` advances). */
  lemma IdleAdvancesToNextSong(q: MusicQueue, outcome: StreamOutcome)
    requires !q.loop && !q.shuffle && |q.songs| > 0
    ensures var r := OnIdle(q);
      && r.resume.Some?
      && var t := PlayMusic(r.queue, r.resume.value.retryCount, 0, outcome);
      && t.step.Attempted? && t.step.song == q.songs[0] && t.step.preDelayMs == 0
      && t.queue.songs == q.songs[1..]
  {
  }

  /** One `play.stream` outcome and the draw used if selection shuffles. */
  datatype Trial = Trial(draw: nat, outcome: StreamOutcome)

  /** The retry count a call ran with and what it did. */
  datatype Entry = Entry(retryCount: nat, step: Step)

  /** Calls of a step function `call`, each scheduled by the previous one's
      retry or give-up timer and fed one trial; the run ends when a call
      schedules nothing or the trials run out. Stated for any `call` so
      that the lemmas below need only the few facts about a call that
      they use. */
  function Run(call: (MusicQueue, nat, Trial) -> Transition, q: MusicQueue, retryCount: nat, trials: seq<Trial>): (trace: seq<Entry>)
    ensures |trace| <= |trials|
    ensures |trials| > 0 ==> |trace| > 0 && trace[0].retryCount == retryCount
    decreases |trials|
  {
    if |trials| == 0 then []
    else
      var t := call(q, retryCount, trials[0]);
      var e := Entry(retryCount, t.step);
      match NextCall(t.step)
      case None => [e]
      case Some(c) => [e] + Run(call, t.queue, c.retryCount, trials[1..])
  }

  /** One call `playMusic(queue, retryCount)` fed a trial. */
  function CallWith(q: MusicQueue, retryCount: nat, trial: Trial): (t: Transition) {
    PlayMusic(q, retryCount, PickFor(q, trial.draw), trial.outcome)
  }

  /** A chain of `playMusic` calls each scheduled by the previous one's
      retry or give-up timer, fed one trial per call; it ends when a call
      schedules nothing or the trials run out. */
  function Chain(q: MusicQueue, retryCount: nat, trials: seq<Trial>): (trace: seq<Entry>)
    ensures |trace| <= |trials|
    ensures |trials| > 0 ==> |trace| > 0 && trace[0].retryCount == retryCount
  {
    Run(CallWith, q, retryCount, trials)
  }

  /** What a step run with `retryCount` and `outcome` must satisfy to be
      one of `playMusic`'s: a retry only below the ceiling and to the next
      count, and the attempt its outcome decides. */
  predicate StepDecided(s: Step, retryCount: nat, outcome: StreamOutcome) {
    && (IsRetry(s) ==> retryCount < MaxRetries && s.attempt.nextRetry == retryCount + 1)
    && (s.Attempted? ==> s.attempt == AttemptFor(retryCount, outcome))
  }

  ghost predicate DecidesSteps(call: (MusicQueue, nat, Trial) -> Transition) {
    forall q, retryCount, trial :: StepDecided(call(q, retryCount, trial).step, retryCount, trial.outcome)
  }

  /** With loop on and a current song, `call` attempts that song and keeps
      `loop` and the current song. */
  predicate KeepsLooped(q: MusicQueue, t: Transition) {
    q.loop && q.currentSong.Some? ==>
      && t.step.Attempted? && t.step.song == q.currentSong.value
      && t.queue.loop && t.queue.currentSong == q.currentSong
  }

  ghost predicate KeepsLoopedSong(call: (MusicQueue, nat, Trial) -> Transition) {
    forall q, retryCount, trial :: KeepsLooped(q, call(q, retryCount, trial))
  }

  /** What one call contributes to a chain: a retry only below the
      ceiling, the attempt its outcome decides, and the count of the call
      it schedules. */
  lemma StepFacts(q: MusicQueue, retryCount: nat, pick: nat, outcome: StreamOutcome)
    requires PickInRange(q, pick)
    ensures var t := PlayMusic(q, retryCount, pick, outcome);
      && StepDecided(t.step, retryCount, outcome)
      && KeepsLooped(q, t)
  {
    var s := PlayMusic(q, retryCount, pick, outcome).step;
    if IsRetry(s) {
      assert IsYouTubeError(outcome.message);
    }
  }

  lemma CallWithDecides()
    ensures DecidesSteps(CallWith) && KeepsLoopedSong(CallWith)
  {
    forall q, retryCount, trial
      ensures StepDecided(CallWith(q, retryCount, trial).step, retryCount, trial.outcome)
      ensures KeepsLooped(q, CallWith(q, retryCount, trial))
    {
      StepFacts(q, retryCount, PickFor(q, trial.draw), trial.outcome);
    }
  }

  /** Entry `k` of a run is decided by that entry's trial. */
  lemma {:induction false} RunEntry(call: (MusicQueue, nat, Trial) -> Transition, q: MusicQueue, retryCount: nat, trials: seq<Trial>, k: nat)
    requires DecidesSteps(call)
    requires k < |Run(call, q, retryCount, trials)|
    ensures var e := Run(call, q, retryCount, trials)[k];
      StepDecided(e.step, e.retryCount, trials[k].outcome)
    decreases k
  {
    var t := call(q, retryCount, trials[0]);
    if k > 0 {
      var c := NextCall(t.step).value;
      var rest := Run(call, t.queue, c.retryCount, trials[1..]);
      RunEntry(call, t.queue, c.retryCount, trials[1..], k - 1);
      assert Run(call, q, retryCount, trials)[k] == rest[k - 1];
      assert trials[k] == trials[1..][k - 1];
    }
  }

  /** An entry of a run that is followed by another scheduled a retry or a
      give-up, and the next call runs with the count plus one after a
      retry, else 0. */
  lemma {:induction false} RunLink(call: (MusicQueue, nat, Trial) -> Transition, q: MusicQueue, retryCount: nat, trials: seq<Trial>, k: nat)
    requires DecidesSteps(call)
    requires k + 1 < |Run(call, q, retryCount, trials)|
    ensures var tr := Run(call, q, retryCount, trials);
      && tr[k].step.Attempted? && (tr[k].step.attempt.Retry? || tr[k].step.attempt.GiveUp?)
      && tr[k + 1].retryCount == (if IsRetry(tr[k].step) then tr[k].retryCount + 1 else 0)
    decreases k
  {
    var t := call(q, retryCount, trials[0]);
    var c := NextCall(t.step).value;
    var rest := Run(call, t.queue, c.retryCount, trials[1..]);
    var tr := Run(call, q, retryCount, trials);
    assert tr == [Entry(retryCount, t.step)] + rest;
    if k == 0 {
      assert StepDecided(t.step, retryCount, trials[0].outcome);
      assert tr[1] == rest[0];
    } else {
      RunLink(call, t.queue, c.retryCount, trials[1..], k - 1);
      assert tr[k] == rest[k - 1] && tr[k + 1] == rest[k];
    }
  }

  /** Each entry of a chain: a retry only below the ceiling, the attempt
      decided by that entry's trial, and the count the next call runs with. */
  lemma ChainStep(q: MusicQueue, retryCount: nat, trials: seq<Trial>, k: nat)
    requires k < |Chain(q, retryCount, trials)|
    ensures var tr := Chain(q, retryCount, trials);
      && (IsRetry(tr[k].step) ==> tr[k].retryCount < MaxRetries)
      && (tr[k].step.Attempted? ==> tr[k].step.attempt == AttemptFor(tr[k].retryCount, trials[k].outcome))
      && (k + 1 < |tr| ==> tr[k].step.Attempted? && (tr[k].step.attempt.Retry? || tr[k].step.attempt.GiveUp?))
      && (k + 1 < |tr| ==> tr[k + 1].retryCount == (if IsRetry(tr[k].step) then tr[k].retryCount + 1 else 0))
  {
    CallWithDecides();
    RunEntry(CallWith, q, retryCount, trials, k);
    if k + 1 < |Chain(q, retryCount, trials)| {
      RunLink(CallWith, q, retryCount, trials, k);
    }
  }

  /** Retry ceiling: starting at or below the ceiling, no call in a chain
      ever runs with a retry count above 4. */
  lemma ChainRetryCeiling(q: MusicQueue, retryCount: nat, trials: seq<Trial>)
    requires retryCount <= MaxRetries
    ensures var tr := Chain(q, retryCount, trials);
      forall k :: 0 <= k < |tr| ==> tr[k].retryCount <= MaxRetries
  {
    var tr := Chain(q, retryCount, trials);
    forall k | 0 < k < |tr|
      ensures tr[k].retryCount <= MaxRetries
    {
      ChainStep(q, retryCount, trials, k - 1);
    }
  }

  /** No chain contains five retries in a row: every window of five calls
      has one that did not schedule a retry. */
  lemma NoFiveRetriesInARow(q: MusicQueue, retryCount: nat, trials: seq<Trial>, k: nat)
    requires k + 4 < |Chain(q, retryCount, trials)|
    ensures var tr := Chain(q, retryCount, trials);
      exists j :: k <= j <= k + 4 && !IsRetry(tr[j].step)
  {
    var tr := Chain(q, retryCount, trials);
    ChainStep(q, retryCount, trials, k);
    ChainStep(q, retryCount, trials, k + 1);
    ChainStep(q, retryCount, trials, k + 2);
    ChainStep(q, retryCount, trials, k + 3);
    ChainStep(q, retryCount, trials, k + 4);
    if !IsRetry(tr[k].step) {
    } else if !IsRetry(tr[k + 1].step) {
    } else if !IsRetry(tr[k + 2].step) {
    } else if !IsRetry(tr[k + 3].step) {
    } else {
      assert tr[k + 4].retryCount >= MaxRetries;
      assert !IsRetry(tr[k + 4].step);
    }
  }

  /** Every stream attempt fails, each with a message. */
  predicate AllFail(trials: seq<Trial>) {
    forall k :: 0 <= k < |trials| ==> trials[k].outcome.StreamFailed?
  }

  /** With loop on and a current song, entry `k` of a run attempts that
      song. */
  lemma {:induction false} RunKeepsLoopedSong(call: (MusicQueue, nat, Trial) -> Transition, q: MusicQueue, retryCount: nat, trials: seq<Trial>, k: nat)
    requires KeepsLoopedSong(call)
    requires q.loop && q.currentSong.Some?
    requires k < |Run(call, q, retryCount, trials)|
    ensures var e := Run(call, q, retryCount, trials)[k];
      e.step.Attempted? && e.step.song == q.currentSong.value
    decreases k
  {
    var t := call(q, retryCount, trials[0]);
    assert KeepsLooped(q, t);
    if k > 0 {
      var c := NextCall(t.step).value;
      RunKeepsLoopedSong(call, t.queue, c.retryCount, trials[1..], k - 1);
      assert Run(call, q, retryCount, trials)[k] == Run(call, t.queue, c.retryCount, trials[1..])[k - 1];
    }
  }

  /** With loop on and a current song, a run whose stream attempts all fail
      with a message uses every trial: each failure schedules the next
      call, by a retry or by a give-up restarting at 0. */
  lemma {:induction false} RunFailuresNeverEnd(call: (MusicQueue, nat, Trial) -> Transition, q: MusicQueue, retryCount: nat, trials: seq<Trial>)
    requires DecidesSteps(call) && KeepsLoopedSong(call)
    requires q.loop && q.currentSong.Some? && AllFail(trials)
    ensures |Run(call, q, retryCount, trials)| == |trials|
    decreases |trials|
  {
    if |trials| > 0 {
      var t := call(q, retryCount, trials[0]);
      assert KeepsLooped(q, t) && StepDecided(t.step, retryCount, trials[0].outcome);
      assert trials[0].outcome.StreamFailed?;
      var c := NextCall(t.step).value;
      assert AllFail(trials[1..]);
      RunFailuresNeverEnd(call, t.queue, c.retryCount, trials[1..]);
    }
  }

  /** With loop on and a current song, that song is never dropped: every
      call of a chain re-attempts it, and as long as attempts fail the
      chain goes on (by retries and by give-ups restarting at 0). */
  lemma LoopedSongNeverDropped(q: MusicQueue, retryCount: nat, trials: seq<Trial>)
    requires q.loop && q.currentSong.Some?
    ensures var tr := Chain(q, retryCount, trials);
      forall k :: 0 <= k < |tr| ==> tr[k].step.Attempted? && tr[k].step.song == q.currentSong.value
    ensures AllFail(trials) ==> |Chain(q, retryCount, trials)| == |trials|
  {
    CallWithDecides();
    var tr := Chain(q, retryCount, trials);
    forall k | 0 <= k < |tr|
      ensures tr[k].step.Attempted? && tr[k].step.song == q.currentSong.value
    {
      RunKeepsLoopedSong(CallWith, q, retryCount, trials, k);
    }
    if AllFail(trials) {
      RunFailuresNeverEnd(CallWith, q, retryCount, trials);
    }
  }

  /** With loop and shuffle off, a call attempts the head of the queue it
      is given and hands on the rest, with both modes still off. */
  predicate TakesHead(q: MusicQueue, t: Transition) {
    !q.loop && !q.shuffle ==>
      && !t.queue.loop && !t.queue.shuffle
      && (t.step.Attempted? ==> |q.songs| > 0 && t.step.song == q.songs[0] && t.queue.songs == q.songs[1..])
  }

  ghost predicate TakesHeads(call: (MusicQueue, nat, Trial) -> Transition) {
    forall q, retryCount, trial :: TakesHead(q, call(q, retryCount, trial))
  }

  lemma CallWithTakesHeads()
    ensures TakesHeads(CallWith)
  {
    forall q, retryCount, trial
      ensures TakesHead(q, CallWith(q, retryCount, trial))
    {
      var t := CallWith(q, retryCount, trial);
      if !q.loop && !q.shuffle && t.step.Attempted? {
        assert [t.step.song] + t.queue.songs == q.songs;
        assert t.queue.songs == q.songs[1..];
      }
    }
  }

  /** With loop and shuffle off, each call of a run works on the queue the
      previous call left, so entry `k` attempts the `k`-th pending song. */
  lemma {:induction false} RunTakesSongsInOrder(call: (MusicQueue, nat, Trial) -> Transition, q: MusicQueue, retryCount: nat, trials: seq<Trial>, k: nat)
    requires TakesHeads(call)
    requires !q.loop && !q.shuffle
    requires k < |Run(call, q, retryCount, trials)|
    ensures var e := Run(call, q, retryCount, trials)[k];
      e.step.Attempted? ==> k < |q.songs| && e.step.song == q.songs[k]
    decreases k
  {
    var t := call(q, retryCount, trials[0]);
    assert TakesHead(q, t);
    if k > 0 {
      var c := NextCall(t.step).value;
      var rest := Run(call, t.queue, c.retryCount, trials[1..]);
      assert Run(call, q, retryCount, trials)[k] == rest[k - 1];
      RunTakesSongsInOrder(call, t.queue, c.retryCount, trials[1..], k - 1);
      if rest[k - 1].step.Attempted? {
        assert t.queue.songs[k - 1] == q.songs[k];
      }
    }
  }

  /** A retry or a give-up does not go back to the failed song: with loop
      and shuffle off, the calls of a chain attempt the pending songs one
      after the other, in queue order. */
  lemma ChainTakesSongsInOrder(q: MusicQueue, retryCount: nat, trials: seq<Trial>, k: nat)
    requires !q.loop && !q.shuffle
    requires k < |Chain(q, retryCount, trials)|
    ensures Chain(q, retryCount, trials)[k].step.Attempted? ==>
      k < |q.songs| && Chain(q, retryCount, trials)[k].step.song == q.songs[k]
  {
    CallWithTakesHeads();
    RunTakesSongsInOrder(CallWith, q, retryCount, trials, k);
  }

  /** Five YouTube-blocking failures of a looped song: four retries (waits
      5, 10, 20, 30 s) then a "persistent" give-up that waits 5 s. Because
      loop is on, the give-up restarts the same song at retry count 0. */
  lemma FiveBlockingFailuresOfLoopedSong(q: MusicQueue, draws: seq<nat>, message: string)
    requires q.loop && q.currentSong.Some? && IsYouTubeError(message) && |draws| == 5
    ensures var trials := seq(5, k requires 0 <= k < 5 => Trial(draws[k], StreamFailed(message)));
      var tr := Chain(q, 0, trials);
      && |tr| == 5
      && (forall k :: 0 <= k < 5 ==> tr[k].retryCount == k)
      && (forall k :: 0 <= k < 4 ==> tr[k].step.Attempted? && tr[k].step.attempt == Retry(k + 1, RetryWaitsSeconds[k]))
      && tr[4].step.Attempted? && tr[4].step.attempt == GiveUp(true, YouTubeSkipDelayMs)
  {
    var trials := seq(5, k requires 0 <= k < 5 => Trial(draws[k], StreamFailed(message)));
    var tr := Chain(q, 0, trials);
    assert AllFail(trials);
    LoopedSongNeverDropped(q, 0, trials);
    ChainStep(q, 0, trials, 0);
    ChainStep(q, 0, trials, 1);
    ChainStep(q, 0, trials, 2);
    ChainStep(q, 0, trials, 3);
    ChainStep(q, 0, trials, 4);
  }

  /** The first call of a play-through: loop off, the stream succeeds. */
  function StartStreamed(q: MusicQueue, draw: nat): (t: Transition)
    requires !q.loop
    ensures t.step.Attempted? <==> |q.songs| > 0
    ensures !t.queue.loop && t.queue.shuffle == q.shuffle
    ensures !t.step.Attempted? ==> t.queue.songs == [] && !t.queue.isPlaying && t.queue.currentSong == q.currentSong
    ensures t.step.Attempted? ==>
      && t.queue.currentSong == Some(t.step.song)
      && |t.queue.songs| == |q.songs| - 1
      && multiset(t.queue.songs) + multiset{t.step.song} == multiset(q.songs)
      && (!q.shuffle ==> [t.step.song] + t.queue.songs == q.songs)
    ensures t.step.Attempted? ==> t.queue.isPlaying && t.step.attempt == Playing && t.step.preDelayMs == 0
    ensures t.queue.connection == q.connection
  {
    var t := PlayMusic(q, 0, PickFor(q, draw), Streamed);
    assert t.step.Attempted? ==> |t.queue.songs| == |multiset(t.queue.songs)|;
    t
  }

  /** Plays a queue through with every stream succeeding and loop off: a
      `playMusic` call, the song playing to its end, the Idle handler, and
      again. Returns the songs started and the final state. Every pending
      song is started exactly once. */
  datatype Session = Session(played: seq<Song>, queue: MusicQueue)

  function PlayThrough(q: MusicQueue, draws: seq<nat>): (s: Session)
    requires !q.loop
    ensures multiset(s.played) == multiset(q.songs)
    decreases |q.songs|
  {
    var t := StartStreamed(q, DrawAt(draws));
    if t.step.Attempted? then
      var idle := OnIdle(t.queue);
      if idle.resume.Some? then
        var rest := PlayThrough(idle.queue, DropDraw(draws));
        Session([t.step.song] + rest.played, rest.queue)
      else
        Session([t.step.song], idle.queue)
    else
      Session([], t.queue)
  }

  /** Without shuffle the songs start in queue order (A, B, C, then the
      queue-empty notice). */
  lemma {:induction false} PlayThroughInOrder(q: MusicQueue, draws: seq<nat>)
    requires !q.loop && !q.shuffle
    ensures PlayThrough(q, draws).played == q.songs
    decreases |q.songs|
  {
    var t := StartStreamed(q, DrawAt(draws));
    if t.step.Attempted? {
      var idle := OnIdle(t.queue);
      if idle.resume.Some? {
        PlayThroughInOrder(idle.queue, DropDraw(draws));
      }
    }
  }

  /** A play-through ends idle with nothing pending, and starts as many
      songs as were pending. */
  lemma {:induction false} PlayThroughEndsIdle(q: MusicQueue, draws: seq<nat>)
    requires !q.loop
    ensures var s := PlayThrough(q, draws);
      && s.queue.songs == [] && !s.queue.isPlaying
      && |s.played| == |q.songs|
    decreases |q.songs|
  {
    var s := PlayThrough(q, draws);
    assert |s.played| == |multiset(s.played)| == |multiset(q.songs)| == |q.songs|;
    var t := StartStreamed(q, DrawAt(draws));
    if t.step.Attempted? {
      var idle := OnIdle(t.queue);
      if idle.resume.Some? {
        PlayThroughEndsIdle(idle.queue, DropDraw(draws));
      }
    }
  }

  /** One round of a play-through: the song started first, then the rest
      of the play-through when the Idle handler resumed playback. */
  lemma PlayThroughUnfold(q: MusicQueue, draws: seq<nat>)
    requires !q.loop && |q.songs| > 0
    ensures var t := StartStreamed(q, DrawAt(draws)); var idle := OnIdle(t.queue);
      && t.step.Attempted?
      && (idle.resume.Some? ==>
            && !idle.queue.loop && |idle.queue.songs| > 0
            && var rest := PlayThrough(idle.queue, DropDraw(draws));
               PlayThrough(q, draws) == Session([t.step.song] + rest.played, rest.queue))
      && (idle.resume.None? ==> PlayThrough(q, draws) == Session([t.step.song], idle.queue))
  {
  }

  /** A session that started some song and ends with the last one started
      as the current song. */
  predicate EndsOnLastStarted(s: Session) {
    |s.played| > 0 && s.queue.currentSong == Some(s.played[|s.played| - 1])
  }

  lemma LastStartedCarriesOver(first: Song, rest: Session)
    requires EndsOnLastStarted(rest)
    ensures EndsOnLastStarted(Session([first] + rest.played, rest.queue))
  {
    var played := [first] + rest.played;
    assert played[|played| - 1] == rest.played[|rest.played| - 1];
  }

  /** The last song started stays current after a play-through: the Idle
      handler clears `isPlaying` but never `currentSong`. */
  lemma {:induction false} PlayThroughKeepsLastSongCurrent(q: MusicQueue, draws: seq<nat>)
    requires !q.loop && |q.songs| > 0
    ensures EndsOnLastStarted(PlayThrough(q, draws))
    decreases |q.songs|
  {
    PlayThroughUnfold(q, draws);
    var t := StartStreamed(q, DrawAt(draws));
    var idle := OnIdle(t.queue);
    if idle.resume.Some? {
      PlayThroughKeepsLastSongCurrent(idle.queue, DropDraw(draws));
      LastStartedCarriesOver(t.step.song, PlayThrough(idle.queue, DropDraw(draws)));
    }
  }
}

=== FILE: queues.dfy ===
/** The per-guild `MusicQueue` (bot.js:32-60): pending songs, the current
    song, and the `loop`, `shuffle` and `isPlaying` flags, with `addSong`,
    `getNextSong` and `clear`. The voice connection is kept only as its
    status, which is all the command guards and the reaper look at. */
module Queues {
  import opened Common

  /** A resolved song; never changed after it is built. */
  datatype Song = Song(
    title: string,
    url: string,
    duration: string,
    thumbnail: Option<string>,
    author: Option<string>)

  /** The states a voice connection reports. */
  datatype ConnectionStatus = Signalling | Connecting | Ready | Disconnected | Destroyed

  datatype MusicQueue = MusicQueue(
    songs: seq<Song>,
    isPlaying: bool,
    connection: Option<ConnectionStatus>,
    currentSong: Option<Song>,
    loop: bool,
    shuffle: bool)

  /** The state the constructor builds: nothing queued, nothing playing,
      no connection, both modes off. */
  const Fresh: MusicQueue := MusicQueue([], false, None, None, false, false)

  /** `addSong`: push at the end, nothing else changes. */
  function AddSong(q: MusicQueue, song: Song): (r: MusicQueue)
    ensures |r.songs| == |q.songs| + 1
    ensures r.songs[..|q.songs|] == q.songs && r.songs[|q.songs|] == song
    ensures r.(songs := q.songs) == q
  {
    q.(songs := q.songs + [song])
  }

  /** `getNextSong` draws a random position only in shuffle mode with more
      than one song pending. */
  predicate Shuffling(q: MusicQueue) {
    q.shuffle && |q.songs| > 1
  }

  /** The caller-supplied stand-in for `Math.floor(Math.random() * length)`
      is a valid index whenever a draw is made. */
  predicate PickInRange(q: MusicQueue, pick: nat) {
    Shuffling(q) ==> pick < |q.songs|
  }

  datatype Next = Next(song: Option<Song>, rest: MusicQueue)

  /** `getNextSong`: splice out position `pick` in shuffle mode, otherwise
      shift the head; `undefined` when nothing is pending. */
  function GetNextSong(q: MusicQueue, pick: nat): (r: Next)
    requires PickInRange(q, pick)
    ensures r.rest.(songs := q.songs) == q
    ensures r.song.None? <==> |q.songs| == 0
    ensures r.song.None? ==> r.rest == q
    ensures r.song.Some? ==> |r.rest.songs| == |q.songs| - 1
    ensures r.song.Some? ==> multiset(r.rest.songs) + multiset{r.song.value} == multiset(q.songs)
    ensures !Shuffling(q) && r.song.Some? ==> [r.song.value] + r.rest.songs == q.songs
    ensures Shuffling(q) ==> r.song.Some? && r.rest.songs[..pick] + [r.song.value] + r.rest.songs[pick..] == q.songs
  {
    if Shuffling(q) then
      var s := q.songs;
      assert s == s[..pick] + [s[pick]] + s[pick + 1..];
      var rest := s[..pick] + s[pick + 1..];
      assert rest[..pick] == s[..pick] && rest[pick..] == s[pick + 1..];
      Next(Some(s[pick]), q.(songs := rest))
    else if |q.songs| == 0 then
      Next(None, q)
    else
      assert q.songs == [q.songs[0]] + q.songs[1..];
      Next(Some(q.songs[0]), q.(songs := q.songs[1..]))
  }

  /** `MusicQueue.clear()`: drops every pending song and forgets the current
      one; flags and the connection are kept. */
  function Clear(q: MusicQueue): (r: MusicQueue)
    ensures r.songs == [] && r.currentSong.None?
    ensures r.isPlaying == q.isPlaying && r.loop == q.loop && r.shuffle == q.shuffle
    ensures r.connection == q.connection
  {
    q.(songs := [], currentSong := None)
  }

  /** Turns an arbitrary draw into a valid pick for `q`. */
  function PickFor(q: MusicQueue, draw: nat): (pick: nat)
    ensures PickInRange(q, pick)
    ensures |q.songs| > 0 ==> pick < |q.songs|
  {
    if |q.songs| > 0 then draw % |q.songs| else 0
  }

  function DrawAt(draws: seq<nat>): nat {
    if |draws| > 0 then draws[0] else 0
  }

  function DropDraw(draws: seq<nat>): seq<nat> {
    if |draws| > 0 then draws[1..] else []
  }

  /** Calls `getNextSong` until nothing is pending and lists what it gave.
      Every pending song comes out exactly once, and without shuffle they
      come out in queue order. */
  function Drain(q: MusicQueue, draws: seq<nat>): (out: seq<Song>)
    ensures multiset(out) == multiset(q.songs)
    ensures !q.shuffle ==> out == q.songs
    decreases |q.songs|
  {
    if |q.songs| == 0 then []
    else
      var n := GetNextSong(q, PickFor(q, DrawAt(draws)));
      [n.song.value] + Drain(n.rest, DropDraw(draws))
  }

  /** `addSong` for each of `xs` in turn. */
  function AddAll(q: MusicQueue, xs: seq<Song>): (r: MusicQueue)
    ensures r.songs == q.songs + xs
    ensures r.(songs := q.songs) == q
    decreases |xs|
  {
    if |xs| == 0 then q
    else
      assert q.songs + xs == (q.songs + [xs[0]]) + xs[1..];
      AddAll(AddSong(q, xs[0]), xs[1..])
  }

  /** FIFO: songs added to a queue without shuffle come out after the ones
      already pending, in the order they were added. */
  lemma AddedSongsComeOutInOrder(q: MusicQueue, xs: seq<Song>, draws: seq<nat>)
    requires !q.shuffle
    ensures Drain(AddAll(q, xs), draws) == q.songs + xs
  {
  }

  /** With shuffle on, draining still yields every added song exactly as
      many times as it was added. */
  lemma ShuffledDrainConservesSongs(q: MusicQueue, xs: seq<Song>, draws: seq<nat>)
    ensures multiset(Drain(AddAll(q, xs), draws)) == multiset(q.songs) + multiset(xs)
  {
  }
}

=== FILE: registry.dfy ===
/** The guild registry (`queues`, bot.js:26) and what the slash commands
    (bot.js:341-540), the buttons (bot.js:544-578), the voice-leave handler
    (bot.js:580-592) and the five-minute reaper (bot.js:619-627) do to it.
    Replies are modelled as which message is sent, not its text; the voice
    check and the lookup results are inputs. */
module Registry {
  import opened Common
  import opened Queues
  import opened Playback
  import Search

  type GuildId = string

  /** The registry: one queue per guild that has one. */
  type Guilds = map<GuildId, MusicQueue>

  /** The only guild the commands answer in. */
  const AllowedServers: set<GuildId> := {"869299042612563968"}

  /** `/play` carries its query together with what the lookups return for
      it (`video_info` for a direct link, and the search outcomes) and the
      draw its playback start uses if it shuffles. */
  datatype Command =
    | Play(query: string, info: Option<Search.VideoDetails>, searchAttempt: nat -> Search.SearchOutcome, draw: nat)
    | Skip
    | Stop
    | Pause
    | ShowQueue
    | Loop
    | Shuffle
    | Clear
    | Disconnect

  /** The commands that require the member to be in a voice channel. */
  predicate NeedsVoice(cmd: Command) {
    cmd.Play? || cmd.Skip? || cmd.Stop? || cmd.Pause?
  }

  /** One line `n. **title** - author` of the `/queue` listing. */
  datatype ListingLine = ListingLine(position: nat, song: Song)

  /** The lines shown and the count in the trailing "... y N más" line
      (0 when there is none). */
  datatype Listing = Listing(lines: seq<ListingLine>, more: nat)

  datatype Reply =
    | NotAuthorized
    | NotInVoiceChannel
    | NothingPlaying
    | QueueIsEmpty
    | AlreadyEmpty
    | NotConnected
    | UrlInfoFailed
    | NoSongFound
    | Unanswered                       // the search rejected: no follow-up is sent
    | Added(song: Song, position: nat, startPlayback: bool)
    | Skipped
    | Stopped
    | PauseToggled
    | Listed(listing: Listing)
    | LoopToggled(on: bool)
    | ShuffleToggled(on: bool)
    | Cleared(count: nat)
    | LeftVoice
    | Ignored

  /** Replies that refuse the request. */
  predicate IsRefusal(r: Reply) {
    r.NotAuthorized? || r.NotInVoiceChannel? || r.NothingPlaying? || r.QueueIsEmpty?
    || r.AlreadyEmpty? || r.NotConnected? || r.UrlInfoFailed? || r.NoSongFound?
  }

  datatype Handled = Handled(registry: Guilds, reply: Reply)

  /** `reg2` agrees with `reg1` on every guild other than `guild`. */
  ghost predicate OthersUntouched(reg1: Guilds, reg2: Guilds, guild: GuildId) {
    && (forall g :: g != guild ==> (g in reg1 <==> g in reg2))
    && (forall g :: g != guild && g in reg1 ==> reg2[g] == reg1[g])
  }

  /** The queue `/play` works on: the existing one or a new one. */
  function QueueFor(reg: Guilds, guild: GuildId): (q: MusicQueue) {
    if guild in reg then reg[guild] else Fresh
  }

  /** The queue with a voice connection, joining one if it has none. */
  function Joined(q: MusicQueue): (r: MusicQueue)
    ensures r.connection.Some?
    ensures r.(connection := q.connection) == q
    ensures q.connection.Some? ==> r == q
  {
    if q.connection.None? then q.(connection := Some(Signalling)) else q
  }

  /** The queue after the song selection of a `playMusic` call. */
  function Selected(q: MusicQueue, draw: nat): (r: MusicQueue)
    ensures r.loop == q.loop && r.shuffle == q.shuffle
    ensures r.isPlaying == q.isPlaying && r.connection == q.connection
  {
    SelectSong(q, PickFor(q, draw)).rest
  }

  /** `/play`, given what the lookup of its query (`Search.Resolve`) ended
      with. The queue entry and the voice connection are created before
      the song is looked up, so they stay even when the lookup fails. When
      nothing was playing, the `playMusic(queue)` the handler starts runs
      its song selection before its first `await`, so the registry the
      handler leaves already has the song selected; the stream attempt
      that follows is `Complete`. */
  function PlayCommand(reg: Guilds, guild: GuildId, query: string, lookup: Search.Lookup, draw: nat): (r: Handled)
    ensures OthersUntouched(reg, r.registry, guild)
    ensures guild in r.registry
    ensures var q0 := QueueFor(reg, guild); var q := r.registry[guild];
      && q.connection == (if q0.connection.None? then Some(Signalling) else q0.connection)
      && q.loop == q0.loop && q.shuffle == q0.shuffle && q.isPlaying == q0.isPlaying
    ensures r.reply.Added? <==> lookup.Resolved?
    ensures r.reply.Added? ==>
      var q0 := QueueFor(reg, guild);
      && r.reply.song == lookup.song
      && r.reply.position == |q0.songs| + 1
      && r.reply.startPlayback == !q0.isPlaying
  {
    var q1 := Joined(QueueFor(reg, guild));
    match lookup
    case Rejected =>
      Handled(reg[guild := q1], Unanswered)
    case NotFound =>
      Handled(reg[guild := q1], if Search.IsVideoLink(query) then UrlInfoFailed else NoSongFound)
    case Resolved(song) =>
      var q2 := AddSong(q1, song);
      var q3 := if q2.isPlaying then q2 else Selected(q2, draw);
      Handled(reg[guild := q3], Added(song, |q2.songs|, !q2.isPlaying))
  }

  /** A `/play` whose lookup fails answers by query kind (a link whose
      `video_info` failed, or a search that found nothing), or not at all
      when the search rejected, and leaves the songs and the current song
      as they were. */
  lemma PlayCommandFailures(reg: Guilds, guild: GuildId, query: string,
                            info: Option<Search.VideoDetails>, searchAttempt: nat -> Search.SearchOutcome,
                            draw: nat)
    requires !Search.Resolve(query, info, searchAttempt).Resolved?
    ensures var r := PlayCommand(reg, guild, query, Search.Resolve(query, info, searchAttempt), draw);
      && (r.reply.UrlInfoFailed? || r.reply.NoSongFound? || r.reply.Unanswered?)
      && (r.reply.Unanswered? <==> Search.Resolve(query, info, searchAttempt).Rejected?)
      && (r.reply.Unanswered? <==> !Search.IsVideoLink(query) && Search.SearchYouTube(0, searchAttempt).rejected)
      && (r.reply.UrlInfoFailed? ==> Search.IsVideoLink(query))
      && (r.reply.NoSongFound? ==> !Search.IsVideoLink(query))
      && r.registry[guild].songs == QueueFor(reg, guild).songs
      && r.registry[guild].currentSong == QueueFor(reg, guild).currentSong
  {
  }

  /** Where `/play` leaves the added song. Without a playback start it
      waits at the end of the queue. With one, a looped current song is
      kept and the new song waits; otherwise the next song is selected and
      made current, the head when not shuffling, and no song is lost. */
  lemma PlayCommandQueuesSong(reg: Guilds, guild: GuildId, query: string,
                              info: Option<Search.VideoDetails>, searchAttempt: nat -> Search.SearchOutcome,
                              draw: nat)
    requires Search.Resolve(query, info, searchAttempt).Resolved?
    ensures var r := PlayCommand(reg, guild, query, Search.Resolve(query, info, searchAttempt), draw);
      var q0 := QueueFor(reg, guild); var q := r.registry[guild];
      var queued := q0.songs + [r.reply.song];
      && r.reply.Added?
      && (!r.reply.startPlayback || (q0.loop && q0.currentSong.Some?) ==>
            q.songs == queued && q.currentSong == q0.currentSong)
      && (r.reply.startPlayback && !(q0.loop && q0.currentSong.Some?) ==>
            && q.currentSong.Some?
            && multiset(q.songs) + multiset{q.currentSong.value} == multiset(queued)
            && (!q0.shuffle ==> [q.currentSong.value] + q.songs == queued))
  {
    var q0 := QueueFor(reg, guild);
    var q2 := AddSong(Joined(q0), Search.Resolve(query, info, searchAttempt).song);
    assert !q0.shuffle ==> !Shuffling(q2);
  }

  /** `/play` followed by the stream attempt of the call it started is one
      whole `playMusic(queue)` call on the queue with the song added. */
  lemma PlayCommandThenStream(reg: Guilds, guild: GuildId, query: string,
                              info: Option<Search.VideoDetails>, searchAttempt: nat -> Search.SearchOutcome,
                              draw: nat, outcome: StreamOutcome)
    requires Search.Resolve(query, info, searchAttempt).Resolved?
    requires !QueueFor(reg, guild).isPlaying
    ensures var r := PlayCommand(reg, guild, query, Search.Resolve(query, info, searchAttempt), draw);
      var q := r.registry[guild];
      var q2 := AddSong(Joined(QueueFor(reg, guild)), r.reply.song);
      && q.currentSong.Some?
      && Complete(q, q.currentSong.value, 0, outcome) == PlayMusic(q2, 0, PickFor(q2, draw), outcome)
  {
  }

  /** `stop` on a queue: `clear()` then `isPlaying = false`. */
  function StopQueue(q: MusicQueue): (r: MusicQueue)
    ensures r.songs == [] && r.currentSong.None? && !r.isPlaying
    ensures r.loop == q.loop && r.shuffle == q.shuffle && r.connection == q.connection
  {
    Queues.Clear(q).(isPlaying := false)
  }

  /** The `/queue` listing: the first ten pending songs, numbered from 1,
      and how many more there are. */
  const ListingLimit: nat := 10

  function ListQueue(songs: seq<Song>): (l: Listing)
    ensures |l.lines| == Min(|songs|, ListingLimit)
    ensures forall k :: 0 <= k < |l.lines| ==> l.lines[k] == ListingLine(k + 1, songs[k])
    ensures l.more == |songs| - |l.lines|
    ensures l.more > 0 <==> |songs| > ListingLimit
  {
    var n := Min(|songs|, ListingLimit);
    Listing(seq(n, k requires 0 <= k < n => ListingLine(k + 1, songs[k])), |songs| - n)
  }

  function ShownSongs(lines: seq<ListingLine>): (s: seq<Song>)
    ensures |s| == |lines|
    ensures forall k :: 0 <= k < |lines| ==> s[k] == lines[k].song
  {
    seq(|lines|, k requires 0 <= k < |lines| => lines[k].song)
  }

  /** Every pending song is accounted for by the listing: the shown ones
      are a prefix of the queue, and `more` counts the rest. */
  lemma ListingAccountsForQueue(songs: seq<Song>)
    ensures var l := ListQueue(songs);
      && ShownSongs(l.lines) + songs[|l.lines|..] == songs
      && l.more == |songs[|l.lines|..]|
  {
    var l := ListQueue(songs);
    assert ShownSongs(l.lines) == songs[..|l.lines|];
  }

  /** A slash command in `guild`, from a member who is (or is not) in a
      voice channel. Only `/play` can change the registry when it refuses. */
  function HandleCommand(reg: Guilds, guild: GuildId, inVoice: bool, cmd: Command): (r: Handled)
    ensures guild !in AllowedServers ==> r == Handled(reg, NotAuthorized)
    ensures guild in AllowedServers && !inVoice && NeedsVoice(cmd) ==> r == Handled(reg, NotInVoiceChannel)
    ensures OthersUntouched(reg, r.registry, guild)
    ensures IsRefusal(r.reply) && !cmd.Play? ==> r.registry == reg
    ensures guild in AllowedServers && (inVoice || !NeedsVoice(cmd)) && guild !in reg && !cmd.Play? ==>
      r.registry == reg && IsRefusal(r.reply)
    ensures r.registry != reg ==> r.reply.Added? || r.reply.UrlInfoFailed? || r.reply.NoSongFound? || r.reply.Unanswered?
                                  || r.reply.Stopped? || r.reply.LoopToggled? || r.reply.ShuffleToggled?
                                  || r.reply.Cleared? || r.reply.LeftVoice?
  {
    if guild !in AllowedServers then
      Handled(reg, NotAuthorized)
    else if !inVoice && NeedsVoice(cmd) then
      Handled(reg, NotInVoiceChannel)
    else
      match cmd
      case Play(query, info, searchAttempt, draw) =>
        PlayCommand(reg, guild, query, Search.Resolve(query, info, searchAttempt), draw)
      case Skip =>
        // `player.stop()`: the player's Idle event (`OnIdle`) moves on
        if guild !in reg || !reg[guild].isPlaying then Handled(reg, NothingPlaying)
        else Handled(reg, Skipped)
      case Stop =>
        if guild !in reg then Handled(reg, NothingPlaying)
        else Handled(reg[guild := StopQueue(reg[guild])], Stopped)
      case Pause =>
        if guild !in reg || !reg[guild].isPlaying then Handled(reg, NothingPlaying)
        else Handled(reg, PauseToggled)
      case ShowQueue =>
        if guild !in reg || |reg[guild].songs| == 0 then Handled(reg, QueueIsEmpty)
        else Handled(reg, Listed(ListQueue(reg[guild].songs)))
      case Loop =>
        if guild !in reg then Handled(reg, NothingPlaying)
        else
          var q := reg[guild];
          Handled(reg[guild := q.(loop := !q.loop)], LoopToggled(!q.loop))
      case Shuffle =>
        if guild !in reg then Handled(reg, NothingPlaying)
        else
          var q := reg[guild];
          Handled(reg[guild := q.(shuffle := !q.shuffle)], ShuffleToggled(!q.shuffle))
      case Clear =>
        if guild !in reg || |reg[guild].songs| == 0 then Handled(reg, AlreadyEmpty)
        else
          var q := reg[guild];
          Handled(reg[guild := q.(songs := [])], Cleared(|q.songs|))
      case Disconnect =>
        if guild !in reg || reg[guild].connection.None? then Handled(reg, NotConnected)
        else Handled(reg - {guild}, LeftVoice)
  }

  /** The effect of each accepted command on the guild's queue. */
  lemma CommandEffects(reg: Guilds, guild: GuildId, inVoice: bool, cmd: Command)
    requires guild in AllowedServers && guild in reg
    requires inVoice || !NeedsVoice(cmd)
    ensures var r := HandleCommand(reg, guild, inVoice, cmd); var q := reg[guild];
      && (cmd.Stop? ==> r.reply == Stopped && r.registry[guild] == StopQueue(q))
      && (cmd.Loop? ==> r.reply == LoopToggled(!q.loop) && r.registry[guild] == q.(loop := !q.loop))
      && (cmd.Shuffle? ==> r.reply == ShuffleToggled(!q.shuffle) && r.registry[guild] == q.(shuffle := !q.shuffle))
      && (cmd.Skip? || cmd.Pause? ==> r.registry == reg && (r.reply.NothingPlaying? <==> !q.isPlaying))
      && (cmd.Skip? && q.isPlaying ==> r.reply == Skipped)
      && (cmd.Pause? && q.isPlaying ==> r.reply == PauseToggled)
      && (cmd.ShowQueue? ==> r.registry == reg && (r.reply.QueueIsEmpty? <==> q.songs == []))
      && (cmd.ShowQueue? && q.songs != [] ==> r.reply == Listed(ListQueue(q.songs)))
      && (cmd.Clear? ==> (r.reply.AlreadyEmpty? <==> q.songs == []))
      && (cmd.Clear? && q.songs == [] ==> r.registry == reg)
      && (cmd.Clear? && q.songs != [] ==> r.reply == Cleared(|q.songs|) && r.registry[guild] == q.(songs := []))
      && (cmd.Disconnect? ==> (r.reply.NotConnected? <==> q.connection.None?))
      && (cmd.Disconnect? && q.connection.Some? ==> r.registry == reg - {guild})
      && (cmd.Play? ==>
            r == PlayCommand(reg, guild, cmd.query, Search.Resolve(cmd.query, cmd.info, cmd.searchAttempt), cmd.draw))
  {
  }

  /** Without a queue every command but `/play` refuses, each with its own
      message, and no entry is created. */
  lemma CommandsNeedAQueue(reg: Guilds, guild: GuildId, inVoice: bool, cmd: Command)
    requires guild in AllowedServers && guild !in reg && !cmd.Play?
    requires inVoice || !NeedsVoice(cmd)
    ensures var r := HandleCommand(reg, guild, inVoice, cmd);
      && r.registry == reg
      && (cmd.Skip? || cmd.Stop? || cmd.Pause? || cmd.Loop? || cmd.Shuffle? ==> r.reply == NothingPlaying)
      && (cmd.ShowQueue? ==> r.reply == QueueIsEmpty)
      && (cmd.Clear? ==> r.reply == AlreadyEmpty)
      && (cmd.Disconnect? ==> r.reply == NotConnected)
  {
  }

  /** `/clear` is not `MusicQueue.clear()`: it empties the pending songs
      but keeps the current song, so a looped song goes on playing. */
  lemma ClearCommandKeepsCurrentSong(reg: Guilds, guild: GuildId, inVoice: bool)
    requires guild in AllowedServers && guild in reg && |reg[guild].songs| > 0
    ensures var r := HandleCommand(reg, guild, inVoice, Clear); var q := reg[guild];
      && r.reply == Cleared(|q.songs|)
      && r.registry[guild].songs == []
      && r.registry[guild].currentSong == q.currentSong
      && (q.currentSong.Some? ==> r.registry[guild] != Queues.Clear(q))
  {
  }

  /** `/skip` while a song plays (loop and shuffle off, songs pending): the
      player is stopped, and its Idle event starts the next pending song
      with no failure reported for the skipped one. */
  lemma SkipAdvances(reg: Guilds, guild: GuildId, outcome: StreamOutcome)
    requires guild in AllowedServers && guild in reg
    requires reg[guild].isPlaying && !reg[guild].loop && !reg[guild].shuffle && |reg[guild].songs| > 0
    ensures var r := HandleCommand(reg, guild, true, Skip);
      && r == Handled(reg, Skipped)
      && var idle := OnIdle(r.registry[guild]);
      && idle.resume.Some?
      && var t := PlayMusic(idle.queue, idle.resume.value.retryCount, 0, outcome);
      && t.step.Attempted? && t.step.song == reg[guild].songs[0]
  {
    IdleAdvancesToNextSong(reg[guild], outcome);
  }

  /** After `/stop` nothing plays again by itself: when the stopped player
      goes idle, either the queue is marked idle, or (loop on) the resumed
      `playMusic` finds nothing to reuse or take. */
  lemma StopSilences(reg: Guilds, guild: GuildId, outcome: StreamOutcome)
    requires guild in AllowedServers && guild in reg
    ensures var q := HandleCommand(reg, guild, true, Stop).registry[guild];
      var idle := OnIdle(q);
      && !idle.queue.isPlaying
      && (idle.resume.Some? ==> PlayMusic(idle.queue, idle.resume.value.retryCount, 0, outcome).step.NothingTaken?)
  {
  }

  /** `/play` in a guild without an entry starts from a fresh queue with a
      new connection, answers with position 1, and selects the song at
      once; its stream attempt then runs with no delay and sets
      `isPlaying` exactly when the stream succeeds. */
  lemma PlayOnFreshGuild(reg: Guilds, guild: GuildId, query: string,
                         info: Option<Search.VideoDetails>, searchAttempt: nat -> Search.SearchOutcome,
                         draw: nat, outcome: StreamOutcome)
    requires guild in AllowedServers && guild !in reg
    requires Search.Resolve(query, info, searchAttempt).Resolved?
    ensures var r := HandleCommand(reg, guild, true, Play(query, info, searchAttempt, draw));
      var song := Search.Resolve(query, info, searchAttempt).song;
      && r.reply == Added(song, 1, true)
      && r.registry[guild] == Fresh.(connection := Some(Signalling), currentSong := Some(song))
      && var t := Complete(r.registry[guild], song, 0, outcome);
      && t.step.preDelayMs == 0 && t.queue.isPlaying == outcome.Streamed?
  {
  }

  /** The buttons under a now-playing message. */
  datatype Button = PauseButton | SkipButton | StopButton | LoopButton

  /** A button press: ignored without a queue; no guild or voice check,
      and skip does not ask whether anything is playing. */
  function PressButton(reg: Guilds, guild: GuildId, b: Button): (r: Handled)
    ensures guild !in reg ==> r == Handled(reg, Ignored)
    ensures OthersUntouched(reg, r.registry, guild)
    ensures guild in reg ==> guild in r.registry
    ensures guild in reg && b == StopButton ==> r.registry[guild] == StopQueue(reg[guild])
    ensures guild in reg && b == LoopButton ==> r.registry[guild] == reg[guild].(loop := !reg[guild].loop)
    ensures b == PauseButton || b == SkipButton ==> r.registry == reg
  {
    if guild !in reg then Handled(reg, Ignored)
    else
      var q := reg[guild];
      match b
      case PauseButton => Handled(reg, PauseToggled)
      case SkipButton => Handled(reg, Skipped)
      case StopButton => Handled(reg[guild := StopQueue(q)], Stopped)
      case LoopButton => Handled(reg[guild := q.(loop := !q.loop)], LoopToggled(!q.loop))
  }

  /** The bot's own voice state changed: when it left a channel, the
      guild's queue is torn down and its entry deleted. */
  function VoiceStateUpdate(reg: Guilds, guild: GuildId, isBot: bool, wasInChannel: bool, nowInChannel: bool): (r: Guilds)
    ensures OthersUntouched(reg, r, guild)
    ensures guild in r <==> guild in reg && !(isBot && wasInChannel && !nowInChannel)
    ensures guild in r ==> r[guild] == reg[guild]
  {
    if isBot && wasInChannel && !nowInChannel && guild in reg then reg - {guild} else reg
  }

  /** `/play` started from a fresh queue: a new connection, nothing
      pending, loop and shuffle off, and the added song (if any) current. */
  predicate StartedFresh(r: Handled, guild: GuildId) {
    && guild in r.registry
    && var q := r.registry[guild];
    && !q.loop && !q.shuffle && !q.isPlaying
    && q.connection == Some(Signalling)
    && q.songs == []
    && q.currentSong == (if r.reply.Added? then Some(r.reply.song) else None)
  }

  /** After a teardown by leaving the channel or by `/disconnect`, the next
      `/play` starts over from a fresh queue. */
  lemma TeardownThenPlayStartsFresh(reg: Guilds, guild: GuildId, query: string,
                                    info: Option<Search.VideoDetails>, searchAttempt: nat -> Search.SearchOutcome,
                                    draw: nat)
    requires guild in AllowedServers
    ensures var gone := VoiceStateUpdate(reg, guild, true, true, false);
      StartedFresh(HandleCommand(gone, guild, true, Play(query, info, searchAttempt, draw)), guild)
    ensures guild in reg && reg[guild].connection.Some? ==>
      var gone := HandleCommand(reg, guild, true, Disconnect).registry;
      StartedFresh(HandleCommand(gone, guild, true, Play(query, info, searchAttempt, draw)), guild)
  {
  }

  /** The reaper's test: a connection whose status is `destroyed`. */
  predicate IsDead(q: MusicQueue) {
    q.connection == Some(Destroyed)
  }

  /** The reaper's outcome: exactly the entries without a destroyed
      connection remain, unchanged. */
  function Reap(reg: Guilds): (r: Guilds)
    ensures forall g :: g in r <==> g in reg && !IsDead(reg[g])
    ensures forall g :: g in r ==> r[g] == reg[g]
  {
    map g | g in reg && !IsDead(reg[g]) :: reg[g]
  }

  /** The reaper's sweep, visiting the entries one at a time and deleting
      the dead ones, ends with exactly `Reap(reg)`. */
  method Sweep(reg: Guilds) returns (swept: Guilds)
    ensures swept == Reap(reg)
  {
    swept := reg;
    var pending := reg.Keys;
    while pending != {}
      invariant pending <= reg.Keys && swept.Keys <= reg.Keys
      invariant forall g :: g in swept ==> swept[g] == reg[g]
      invariant forall g :: g in pending ==> g in swept
      invariant forall g :: g in reg && g !in pending ==> (g in swept <==> !IsDead(reg[g]))
      decreases pending
    {
      var g :| g in pending;
      if IsDead(swept[g]) {
        swept := swept - {g};
      }
      pending := pending - {g};
    }
  }

  /** Reaping twice removes nothing more, and never removes a live entry. */
  lemma ReapIdempotent(reg: Guilds)
    ensures Reap(Reap(reg)) == Reap(reg)
    ensures forall g :: g in reg && !IsDead(reg[g]) ==> g in Reap(reg)
  {
  }
}

=== FILE: search.dfy ===
/** `searchYouTube` (bot.js:83-129) as a run over the outcomes of its
    attempts, and how `/play` turns a query into a song (bot.js:399-418).
    The search provider and `video_info` are outside the model: the outcome
    of the attempt made with retry count `k` is `attempt(k)`. */
module Search {
  import opened Common
  import opened Queues
  import opened Backoff

  /** What one `play.search` call gives: a first result, an empty result
      list, a thrown error with its message, or a thrown value without a
      `message` property. */
  datatype SearchOutcome = Found(song: Song) | NoResults | SearchFailed(message: string) | FailedWithoutMessage

  /** The song found (`null` otherwise), whether the run rejected instead
      of returning, how many searches were made, and the total progressive
      delay spent before them. */
  datatype SearchRun = SearchRun(result: Option<Song>, rejected: bool, attempts: nat, waitedMs: nat)

  /** The most searches a run starting at `retryCount` can make. */
  function MaxSearchAttempts(retryCount: nat): nat {
    if retryCount < SearchMaxRetries then SearchMaxRetries - retryCount + 1 else 1
  }

  /** A run of `searchYouTube(query, retryCount)`. Below the retry limit the
      catch block reads `error.message`, so a failure without a message
      makes it throw and the run rejects; at the limit that test is
      short-circuited and the run returns `null`. */
  function SearchYouTube(retryCount: nat, attempt: nat -> SearchOutcome): (r: SearchRun)
    ensures 1 <= r.attempts <= MaxSearchAttempts(retryCount)
    ensures forall j :: retryCount <= j < retryCount + r.attempts - 1 ==>
      attempt(j).SearchFailed? && SearchRetryable(j, attempt(j).message)
    ensures var last := attempt(retryCount + r.attempts - 1);
      && r.result == (if last.Found? then Some(last.song) else None)
      && (last.SearchFailed? ==> !SearchRetryable(retryCount + r.attempts - 1, last.message))
      && (r.rejected <==> last.FailedWithoutMessage? && retryCount + r.attempts - 1 < SearchMaxRetries)
    ensures r.waitedMs >= SearchDelay(retryCount)
    decreases SearchMaxRetries - retryCount
  {
    var wait := SearchDelay(retryCount);
    match attempt(retryCount)
    case Found(song) => SearchRun(Some(song), false, 1, wait)
    case NoResults => SearchRun(None, false, 1, wait)
    case SearchFailed(message) =>
      if SearchRetryable(retryCount, message) then
        var rest := SearchYouTube(retryCount + 1, attempt);
        SearchRun(rest.result, rest.rejected, rest.attempts + 1, wait + rest.waitedMs)
      else
        SearchRun(None, false, 1, wait)
    case FailedWithoutMessage => SearchRun(None, retryCount < SearchMaxRetries, 1, wait)
  }

  /** A search started by `/play` makes at most three attempts, waiting 0,
      2 and 4 seconds before them, so at most 6 seconds in all. */
  lemma {:induction false} SearchFromScratch(attempt: nat -> SearchOutcome)
    ensures var r := SearchYouTube(0, attempt);
      && r.attempts <= SearchMaxRetries + 1
      && r.waitedMs == [0, 2000, 6000][r.attempts - 1]
  {
    var r0 := SearchYouTube(0, attempt);
    if r0.attempts > 1 {
      var r1 := SearchYouTube(1, attempt);
      assert r0.waitedMs == r1.waitedMs && r0.attempts == r1.attempts + 1;
      if r1.attempts > 1 {
        var r2 := SearchYouTube(2, attempt);
        assert r1.waitedMs == 2000 + r2.waitedMs && r2.waitedMs == 4000;
      }
    }
  }

  /** Metadata `play.video_info` returns for a direct link. */
  datatype VideoDetails = VideoDetails(
    title: string,
    duration: string,
    thumbnail: Option<string>,
    author: Option<string>)

  /** A query naming a YouTube link skips the search. */
  predicate IsVideoLink(query: string) {
    Contains(query, "youtube.com") || Contains(query, "youtu.be")
  }

  /** What `/play`'s lookup ends with: a song, a failure it answers, or a
      rejected search that leaves the command unanswered. */
  datatype Lookup = Resolved(song: Song) | NotFound | Rejected

  /** The lookup `/play` makes for `query`: a direct link keeps the query
      as its url and takes the rest from `info`; anything else is
      searched. */
  function Resolve(query: string, info: Option<VideoDetails>, attempt: nat -> SearchOutcome): (r: Lookup)
    ensures IsVideoLink(query) ==> !r.Rejected? && (r.Resolved? <==> info.Some?)
    ensures IsVideoLink(query) && r.Resolved? ==>
      r.song == Song(info.value.title, query, info.value.duration, info.value.thumbnail, info.value.author)
    ensures !IsVideoLink(query) ==> (r.Resolved? <==> SearchYouTube(0, attempt).result.Some?)
    ensures !IsVideoLink(query) && r.Resolved? ==> SearchYouTube(0, attempt).result == Some(r.song)
    ensures !IsVideoLink(query) ==> (r.Rejected? <==> SearchYouTube(0, attempt).rejected)
  {
    if IsVideoLink(query) then
      match info
      case Some(d) => Resolved(Song(d.title, query, d.duration, d.thumbnail, d.author))
      case None => NotFound
    else
      var run := SearchYouTube(0, attempt);
      if run.rejected then Rejected
      else match run.result
        case Some(song) => Resolved(song)
        case None => NotFound
  }

  /** A link's lookup never searches and a query's lookup never reads
      `video_info`: each depends only on its own source. */
  lemma ResolveUsesOneSource(query: string, info1: Option<VideoDetails>, info2: Option<VideoDetails>,
                             attempt1: nat -> SearchOutcome, attempt2: nat -> SearchOutcome)
    ensures IsVideoLink(query) ==> Resolve(query, info1, attempt1) == Resolve(query, info1, attempt2)
    ensures !IsVideoLink(query) ==> Resolve(query, info1, attempt1) == Resolve(query, info2, attempt1)
  {
  }

  /** A searched query resolves only to the song of the first search that
      did not fail retryably, among the first three; it is rejected only
      when one of the first two threw without a message. */
  lemma SearchedSongWasFound(query: string, info: Option<VideoDetails>, attempt: nat -> SearchOutcome)
    requires !IsVideoLink(query)
    ensures Resolve(query, info, attempt).Resolved? ==>
      exists k: nat :: k <= SearchMaxRetries && attempt(k) == Found(Resolve(query, info, attempt).song)
        && forall j :: 0 <= j < k ==> attempt(j).SearchFailed? && SearchRetryable(j, attempt(j).message)
    ensures Resolve(query, info, attempt).Rejected? ==>
      exists k: nat :: k < SearchMaxRetries && attempt(k).FailedWithoutMessage?
    ensures attempt(0).Found? ==> Resolve(query, info, attempt) == Resolved(attempt(0).song)
  {
    var run := SearchYouTube(0, attempt);
    var k := run.attempts - 1;
    assert k <= SearchMaxRetries;
    if Resolve(query, info, attempt).Resolved? {
      assert attempt(k) == Found(Resolve(query, info, attempt).song);
    }
    if Resolve(query, info, attempt).Rejected? {
      assert attempt(k).FailedWithoutMessage?;
    }
  }
}
